=== FILE: README.md ===
# create-ruxt-app: the scaffolding pipeline in Dafny

`create-ruxt-app <path>` scaffolds a project. It reads a JSON manifest that describes a tree of folders and files. It turns the manifest into a typed tree of `FileHandler` nodes (`File { name, content }` and `Folder { name, children }`). It checks that no path of that tree exists below `<path>` yet. Only then does it create every folder and write every file. One file, `Cargo.toml`, has each `{name}` in its content replaced by the project's name. That name is the last component of `<path>`, or the working directory's own name when `<path>` is `.`.

This project models that pipeline, all of it in `src/structs/handler.rs`, as pure functions over immutable data:

- `Json`: the parsed manifest as a closed datatype. It also models how the builder probes a value: `v["key"]`, `v == "text"` and `as_array()`.
- `Text`: the string operations the builder uses. These are `str::replace`, which scans left to right with no overlaps, and dropping the first and last character. It also holds a split/join reference definition for replacement.
- `Escape`: the serializer's rendering of a JSON string, one of the escapings section 7 of RFC 8259 allows, and the builder's partial decoding of it.
- `FileSystem`: the filesystem as a map from paths to `DirEntry | FileEntry(content)`, with `create_dir_all` and `File::create` + `write_all` as partial functions.
- `Tree`: the `FileHandler` tree and the entries it describes below a root (`Layout`).
- `Builder`: `recursively_create_files`.
- `Validator`: `validate_file_map`.
- `Materializer`: `create_files`.
- `Handler`: `get_name` and the gate in `create_ruxt_app`.

A panic (`expect`) is an outcome, not a crash:

- The builder returns `Failure(ChildrenNotArray)`.
- The materializer returns the filesystem as it stood at the panic, together with the failed step.
- The driver returns a `Run(fs, status)`.

The evident intent is that a malformed manifest is rejected, that a collision ends the process with a failure status, and that contents survive their trip through JSON. Where the code does otherwise, the model follows the code:

- An item whose `type` is neither `"folder"` nor `"file"` is skipped silently. It is not rejected as malformed.
- A name collision is reported and the run ends normally. The process outcome is not distinguished from success.
- A file item without `content` is not malformed. Its content renders as `null` and is written as `ul` (`Builder.MissingContentIsUl`).
- The decoding of file contents is an inverse of the serializer only for text without backslashes and control characters other than the line feed:
  - A literal backslash followed by `n` becomes a backslash and a line break (`Escape.EscapedBackslashMisread`).
  - A tab is written as the two characters `\t` (`Escape.TabMisread`).
  - A quotation mark inside a name is stored as a backslash (`Builder.QuoteInNameMisread`).
- Nothing creates the target directory itself before the first node:
  - If the target does not exist and the manifest starts with a file, the first write fails and the run stops (`Materializer.LeadingFileNeedsRoot`).
  - If the manifest starts with a folder, `create_dir_all` creates the target on the way.

## Model

| member | source | states |
|---|---|---|
| Json.Index | src/structs/handler.rs:143 | `v[key]` is the field's value when `v` is an object holding `key`, and `Null` in every other case; a non-null answer always comes from that field |
| Json.IsText | src/structs/handler.rs:143 | a value equals a string exactly when it is a JSON string with that text, so a missing key never does |
| Json.AsArray | src/structs/handler.rs:144-146 | `as_array()` yields a value exactly when the value is an array, and then its elements |
| Text.Replace | src/structs/handler.rs:153-166 | `str::replace` with a non-empty pattern leaves text without a match unchanged; ReplaceIsSplitJoin gives its full meaning |
| Text.ReplaceIsSplitJoin | src/structs/handler.rs:166 | replacing every match of a pattern, scanning left to right without overlaps, equals cutting the text at those matches and joining the pieces with the replacement |
| Text.SplitCutsLeftmost | src/structs/handler.rs:166 | the cuts are the leftmost non-overlapping matches: no piece, together with the start of the separator that follows it, contains a match, and the last piece contains none |
| Text.JoinSplit | src/structs/handler.rs:166 | cutting at the matches and joining again with the pattern itself gives the text back |
| Text.ReplaceByNothing | src/structs/handler.rs:153 | replacing a quotation mark by nothing removes every copy of it and keeps the other characters in order |
| Text.Without | src/structs/handler.rs:170 | leaving out a character keeps every other character as often as before and the left-out one not at all |
| Text.DropEnds | src/structs/handler.rs:160-162 | one `next` and one `next_back` leave the text between its first and last character, and nothing when it has fewer than two |
| Escape.EscapeChar | src/structs/handler.rs:159 | the serializer writes a character as itself exactly when it is neither a quotation mark, a backslash nor a control character |
| Escape.QuoteString | src/structs/handler.rs:159 | `Value::to_string` on a string starts and ends with a quotation mark, which the decoder's end-dropping removes |
| Escape.Decode | src/structs/handler.rs:159-163 | the builder's decoding of a rendered content; on text without a backslash it only drops the first and last character |
| Escape.DecodeRoundTrip | src/structs/handler.rs:159-163 | backslash-free text wrapped in quotation marks, with its quotation marks escaped as `\"` and its line feeds as `\n`, decodes to itself |
| Escape.DecodeQuoteString | src/structs/handler.rs:159-163 | text without backslashes and without control characters other than the line feed decodes from its serialized form to itself |
| Escape.EscapedBackslashMisread | src/structs/handler.rs:159 | the text backslash-`n` does not survive: it comes back as a backslash followed by a line break |
| Escape.TabMisread | src/structs/handler.rs:159-163 | a tab comes back as the two characters backslash-`t` |
| FileSystem.CreateDirAll | src/structs/handler.rs:73 | `create_dir_all` leaves a directory at the path and every earlier entry unchanged when it succeeds |
| FileSystem.CreateDirAllAddsOnWay | src/structs/handler.rs:73 | it adds only directories, and only at the path or its ancestors |
| FileSystem.CreateDirAllSucceedsIff | src/structs/handler.rs:73 | on a tree it succeeds exactly when neither the path nor an ancestor is a file |
| FileSystem.CreateDirAllKeepsWellFormed | src/structs/handler.rs:73 | it keeps every entry inside a directory |
| FileSystem.WriteFile | src/structs/handler.rs:63-69 | creating and writing a file succeeds exactly when its parent is a directory and it is not one; the file then holds exactly the content, an existing file is truncated, and nothing else changes |
| Tree.Layout | src/structs/handler.rs:84-97 | every path of the tree lies strictly below the root it is joined to |
| Tree.LayoutUnderNames | src/structs/handler.rs:84-97 | every path of the tree starts with the root and the name of one of the top-level nodes |
| Tree.NodePathInLayout | src/structs/handler.rs:84-91 | the path of every top-level node, joined to the root, is one of the tree's paths |
| Validator.Validate | src/structs/handler.rs:80-105 | the check passes exactly when no path of the tree exists; it is true on an empty tree and does not touch the filesystem |
| Materializer.CreateFiles | src/structs/handler.rs:58-78 | whatever happens, even at a panic, an entry off the tree's paths keeps its value |
| Materializer.CreateFilesPlacesLayout | src/structs/handler.rs:58-78 | from a directory root, a run without a panic leaves the old filesystem overlaid with the tree: folders are directories, files hold their content, the rest is unchanged |
| Materializer.CreateFilesSucceeds | src/structs/handler.rs:58-78 | from a directory root, with distinct sibling names and none of the tree's paths existing, no step fails, since each folder exists before its children are written |
| Materializer.CreateFilesStaysOnTree | src/structs/handler.rs:58-78 | from a directory root, every new entry is on a path of the tree |
| Materializer.CreateFilesKeepsWellFormed | src/structs/handler.rs:58-78 | a run, even one that panics, keeps every entry inside a directory |
| Materializer.CreateDirInDir | src/structs/handler.rs:73 | inside a directory, creating a folder fails exactly when a file is in its place, and otherwise adds just that directory |
| Materializer.LeadingFileNeedsRoot | src/structs/handler.rs:61-65 | when the root is not a directory, a leading file cannot be created and the run stops with nothing changed |
| Builder.Kept | src/structs/handler.rs:142-158 | the kept items are the items typed `"folder"` or `"file"`, taken from the manifest, and every such item is kept |
| Builder.KeptAppend | src/structs/handler.rs:142-158 | keeping distributes over concatenation, so the kept items stay in manifest order |
| Builder.StoredName | src/structs/handler.rs:153 | a stored name is the rendered `name` with every quotation mark removed (the same at line 170), so it holds none |
| Builder.FileContent | src/structs/handler.rs:159-167 | the content is the decoded rendering of `content`; in `Cargo.toml` it is that text cut at each `{name}` and joined with the project name |
| Builder.BuildItem | src/structs/handler.rs:143-175 | a folder item becomes a folder and a file item a file, stored under its name, a file holding the item's decoded content; only a folder item can fail |
| Builder.Build | src/structs/handler.rs:137-177 | a successful build has one node per recognised item |
| Builder.BuildSucceedsIff | src/structs/handler.rs:144-146 | building fails exactly when some folder item, at any depth, has no array of children |
| Builder.BuildFollowsManifest | src/structs/handler.rs:142-176 | the i-th node is what the i-th recognised item becomes: manifest order is kept and every other item is dropped |
| Builder.FolderChildren | src/structs/handler.rs:144-157 | a folder's children are the build of its `children` array with the same project name |
| Builder.BuildNamesQuoteFree | src/structs/handler.rs:152-171 | no stored name, at any depth, contains a quotation mark |
| Builder.ProjectNameUnused | src/structs/handler.rs:165-167 | without a `Cargo.toml` file anywhere, the tree is the same whatever the project is called |
| Builder.ManifestStoredName | src/structs/handler.rs:165-170 | every item named `Cargo.toml` is stored under one and the same name, which holds no quotation mark |
| Builder.ProjectNameConfined | src/structs/handler.rs:142-176 | built for two project names, a manifest succeeds for both or neither, and the trees agree in shape, in every name and in the content of every file but the `Cargo.toml` ones |
| Builder.StoredVerbatimName | src/structs/handler.rs:170 | a name the serializer writes as it is, such as `Cargo.toml`, is stored unchanged |
| Builder.QuoteInNameMisread | src/structs/handler.rs:153 | a quotation mark inside a name is lost and the backslash that escaped it kept |
| Builder.FileContentRoundTrip | src/structs/handler.rs:159-167 | a plain content string is written as given; in `Cargo.toml` it is written with each `{name}` replaced |
| Builder.MissingContentIsUl | src/structs/handler.rs:159-163 | a file item without `content` is written as `ul`, in `Cargo.toml` too, given that `null` is how the serializer renders a missing value |
| Handler.Resolve | src/structs/handler.rs:40-50 | `.` components and empty components (a trailing or repeated slash) are dropped, so `myapp/` names `myapp`; every other component is kept, as many times as it occurs |
| Handler.GetName | src/structs/handler.rs:39-56 | a path equal to `.` (also `./` or `./.`) takes the working directory's name; another path is named by its last non-empty component other than `.`, which is never `..`; a path ending in `..`, the empty path and a path of slashes have no name |
| Handler.SlashDropped | src/structs/handler.rs:48-50 | the path `out/` names the directory `out`: the empty component after the trailing slash is dropped |
| Handler.TrailingSlashIgnored | src/structs/handler.rs:48-54 | a path with a trailing slash, such as `myapp/`, is named after its last component, `myapp` |
| Handler.CurrentDirWithSlash | src/structs/handler.rs:40-46 | `./` equals `.` and takes the working directory's name |
| Handler.EmptyPathUnnamed | src/structs/handler.rs:40-50 | the empty path does not equal `.` and has no file name, so no project name |
| Handler.CreateApp | src/structs/handler.rs:28-37 | every outcome but a write, successful or failed, leaves the filesystem unchanged; no outcome changes or removes an earlier entry; the run reports a collision exactly when the name and the tree exist and some path of the tree exists |
| Handler.CreatesTree | src/structs/handler.rs:28-37 | into an existing target, a tree with distinct sibling names and no existing path is written in full and nothing else changes |
| Handler.WritesStayInTarget | src/structs/handler.rs:28-37 | into an existing target, even a run that fails halfway creates entries only strictly below the target |
| Handler.CreateAppKeepsWellFormed | src/structs/handler.rs:28-37 | a run keeps every entry inside a directory |
| Handler.TopLevelCollision | src/structs/handler.rs:32-34 | any top-level node whose path exists, not only the first, stops the run with the filesystem unchanged |
| Handler.ExistingFileCollides | src/structs/handler.rs:80-89 | below a one-component target `out`, for any manifest that builds and has a top-level file item whose name the serializer writes as it is, such as `README.md`, and any filesystem already holding `out/` that name: the collision is reported and the filesystem left unchanged |

## Left out

- `get_file_map` (reading `map.json`, fetching it over HTTP, parsing it as JSON) is I/O. The parsed top-level array is an input of `Handler.CreateApp`. A read, fetch or parse failure, which panics before anything is written, is not modelled.
- `Value::to_string` is the parameter `show`. Only two of its renderings are pinned down. Strings are rendered as `Builder.RendersStrings` says, and `Builder.MissingContentIsUl` assumes that `Null` renders as `null`. Rendering of numbers, booleans, arrays and objects is left abstract. JSON numbers are modelled as integers; the source renders a number wherever it renders a value, but since `show` is abstract, the choice of number type constrains nothing.
- The `eprintln!` diagnostics are left out. `AlreadyExists` does not carry the colliding name.
- `LineWriter` buffering is left out. Creating and writing a file is one step, which fails only when the parent is not a directory or the path is a directory (`FileSystem.WriteFile`). A write error after creation, such as a full disk, is not modelled.
- Permissions, symbolic links, and the race between validation and creation are not modelled.
- Path handling is simplified:
  - Paths are relative to the working directory.
  - A `..` component is an ordinary name in the filesystem model.
  - A path is its components as split at `/`. Absolute paths are not modelled.
  - A node named `.` or with an empty name is an ordinary component in the model. In the source, joining either onto a path names that path itself, so such a node collides with the existing target, or writes onto it.
  - A node name is one path component. A name holding a separator, or an absolute name that `join` would put in place of the target, is not modelled.
- A file name that is not valid UTF-8 (`to_str` failing) is not modelled: every name is a string.
- The working directory is a parameter. Its name is `None` when `current_dir` fails or the directory has no name.
- `src/main.rs`, `src/structs/args.rs`, `src/structs/env.rs` and `src/structs/mod.rs` are not part of this model. They only parse the command line and the environment and re-export the modules.
- The choice between the local and the remote manifest is not modelled. The environment only selects where the manifest comes from.

=== FILE: builder.dfy ===
/**
 * The tree builder (`recursively_create_files`): turns the parsed manifest,
 * a JSON array of items, into the typed tree. An item whose `type` is the
 * string `"folder"` becomes a folder built from its `children` array, one
 * whose `type` is `"file"` becomes a file, and any other item is skipped.
 *
 * The serializer that renders a JSON value as text (`Value::to_string`) is a
 * parameter `show`; the properties that depend on how it renders strings
 * assume the serializer's rendering, one of the escapings section 7 of
 * RFC 8259 allows (see `RendersStrings`).
 */
module Builder {

  import opened Results
  import opened Json
  import opened Text
  import opened Escape
  import opened Tree

  /** The one file whose content receives the project name. */
  const ManifestFile := "Cargo.toml"

  /** What the project name replaces in that file. */
  const Placeholder := "{name}"

  /** The only way building fails: a folder item whose `children` is not an array. */
  datatype BuildError = ChildrenNotArray

  predicate IsFolderItem(item: Value)
  {
    IsText(Index(item, "type"), "folder")
  }

  predicate IsFileItem(item: Value)
  {
    IsText(Index(item, "type"), "file")
  }

  /** The items the builder turns into nodes. */
  predicate Recognised(item: Value)
  {
    IsFolderItem(item) || IsFileItem(item)
  }

  /** The recognised items of `items`, in their order. */
  function Kept(items: seq<Value>): (r: seq<Value>)
    ensures |r| <= |items|
    ensures forall i :: 0 <= i < |r| ==> Recognised(r[i])
    ensures forall i :: 0 <= i < |items| && Recognised(items[i]) ==> items[i] in r
    ensures forall x :: x in r ==> x in items
  {
    if |items| == 0 then []
    else (if Recognised(items[0]) then [items[0]] else []) + Kept(items[1..])
  }

  /**
   * Keeping distributes over concatenation, so the kept items keep their
   * relative order: the kept items of `a` all come before those of `b`.
   */
  lemma {:induction false} KeptAppend(a: seq<Value>, b: seq<Value>)
    ensures Kept(a + b) == Kept(a) + Kept(b)
    decreases |a|
  {
    if |a| > 0 {
      assert (a + b)[0] == a[0];
      assert (a + b)[1..] == a[1..] + b;
      KeptAppend(a[1..], b);
    } else {
      assert a + b == b;
    }
  }

  /** `show` renders strings the way the manifest serializer does. */
  ghost predicate RendersStrings(show: Value -> string)
  {
    forall t :: show(Str(t)) == QuoteString(t)
  }

  /**
   * The name a node is stored under: the rendering of the item's `name` with
   * every quotation mark removed.
   */
  function StoredName(item: Value, show: Value -> string): (r: string)
    ensures '"' !in r
    ensures r == Without(show(Index(item, "name")), '"')
  {
    var rendered := show(Index(item, "name"));
    ReplaceByNothing(rendered, '"');
    Replace(rendered, "\"", "")
  }

  /**
   * A file's content: the decoded rendering of the item's `content`, and in
   * the file whose name is exactly `Cargo.toml` every placeholder, read left
   * to right without overlaps, replaced by the project name.
   */
  function FileContent(item: Value, project: string, show: Value -> string): (r: string)
    ensures IsText(Index(item, "name"), ManifestFile)
      ==> r == Join(Split(Decode(show(Index(item, "content"))), Placeholder), project)
    ensures !IsText(Index(item, "name"), ManifestFile)
      ==> r == Decode(show(Index(item, "content")))
  {
    var decoded := Decode(show(Index(item, "content")));
    if IsText(Index(item, "name"), ManifestFile) then
      ReplaceIsSplitJoin(decoded, Placeholder, project);
      Replace(decoded, Placeholder, project)
    else
      decoded
  }

  /** The node one recognised item becomes. */
  function BuildItem(item: Value, project: string, show: Value -> string): (r: Result<Node, BuildError>)
    requires Recognised(item)
    ensures r.Failure? ==> IsFolderItem(item)
    ensures r.Success? ==> (r.value.Folder? <==> IsFolderItem(item))
    ensures r.Success? ==> r.value.name == StoredName(item, show)
    ensures r.Success? && r.value.File? ==> r.value.content == FileContent(item, project, show)
    decreases item, 1
  {
    if IsFolderItem(item) then
      match AsArray(Index(item, "children"))
      case None => Failure(ChildrenNotArray)
      case Some(children) =>
        (match Build(children, project, show)
         case Failure(e) => Failure(e)
         case Success(nodes) => Success(Folder(StoredName(item, show), nodes)))
    else
      Success(File(StoredName(item, show), FileContent(item, project, show)))
  }

  /** The nodes of the recognised items of `items`, in order; the first failure fails the whole. */
  function Build(items: seq<Value>, project: string, show: Value -> string): (r: Result<seq<Node>, BuildError>)
    ensures r.Success? ==> |r.value| == |Kept(items)|
    decreases items, 2
  {
    if |items| == 0 then Success([])
    else if !Recognised(items[0]) then Build(items[1..], project, show)
    else
      match BuildItem(items[0], project, show)
      case Failure(e) => Failure(e)
      case Success(node) =>
        (match Build(items[1..], project, show)
         case Failure(e) => Failure(e)
         case Success(rest) => Success([node] + rest))
  }

  /**
   * An item the builder can turn into a node: anything but a folder item, or
   * a folder item whose `children` is an array of such items.
   */
  ghost predicate ItemShaped(item: Value)
    decreases item, 1
  {
    IsFolderItem(item) ==>
      && item.Object? && "children" in item.fields && item.fields["children"].Array?
      && WellShaped(item.fields["children"].items)
  }

  ghost predicate WellShaped(items: seq<Value>)
    decreases items, 2
  {
    forall i :: 0 <= i < |items| ==> ItemShaped(items[i])
  }

  /** Building fails exactly when some folder item, at any depth, lacks an array of children. */
  lemma {:induction false} BuildSucceedsIff(items: seq<Value>, project: string, show: Value -> string)
    ensures Build(items, project, show).Success? <==> WellShaped(items)
    decreases items, 2
  {
    if |items| > 0 {
      BuildSucceedsIff(items[1..], project, show);
      assert WellShaped(items) <==> ItemShaped(items[0]) && WellShaped(items[1..]) by {
        assert forall i :: 0 < i < |items| ==> items[i] == items[1..][i - 1];
      }
      if Recognised(items[0]) {
        BuildItemSucceedsIff(items[0], project, show);
      }
    }
  }

  lemma {:induction false} BuildItemSucceedsIff(item: Value, project: string, show: Value -> string)
    requires Recognised(item)
    ensures BuildItem(item, project, show).Success? <==> ItemShaped(item)
    decreases item, 1
  {
    if IsFolderItem(item) && Index(item, "children").Array? {
      BuildSucceedsIff(Index(item, "children").items, project, show);
    }
  }

  /**
   * The builder keeps manifest order: the i-th node is what the i-th
   * recognised item becomes.
   */
  lemma {:induction false} BuildFollowsManifest(items: seq<Value>, project: string, show: Value -> string)
    requires Build(items, project, show).Success?
    ensures forall i :: 0 <= i < |Kept(items)| ==>
      BuildItem(Kept(items)[i], project, show) == Success(Build(items, project, show).value[i])
  {
    if |items| > 0 {
      BuildFollowsManifest(items[1..], project, show);
      if Recognised(items[0]) {
        assert Kept(items) == [items[0]] + Kept(items[1..]);
      } else {
        assert Kept(items) == Kept(items[1..]);
      }
    }
  }

  /** A folder's children are the items of its `children` array, built with the same project name. */
  lemma FolderChildren(item: Value, project: string, show: Value -> string)
    requires IsFolderItem(item) && BuildItem(item, project, show).Success?
    ensures Index(item, "children").Array?
    ensures Build(Index(item, "children").items, project, show)
         == Success(BuildItem(item, project, show).value.children)
  {
  }

  /** No stored name, at any depth, contains a quotation mark. */
  ghost predicate NamesQuoteFree(nodes: seq<Node>)
  {
    forall i :: 0 <= i < |nodes| ==>
      && '"' !in nodes[i].name
      && (nodes[i].Folder? ==> NamesQuoteFree(nodes[i].children))
  }

  lemma {:induction false} BuildNamesQuoteFree(items: seq<Value>, project: string, show: Value -> string)
    requires Build(items, project, show).Success?
    ensures NamesQuoteFree(Build(items, project, show).value)
    decreases items, 2
  {
    if |items| > 0 {
      BuildNamesQuoteFree(items[1..], project, show);
      if Recognised(items[0]) {
        BuildItemNamesQuoteFree(items[0], project, show);
        var nodes := Build(items, project, show).value;
        assert nodes == [BuildItem(items[0], project, show).value] + Build(items[1..], project, show).value;
        assert forall i :: 0 < i < |nodes| ==> nodes[i] == Build(items[1..], project, show).value[i - 1];
      }
    }
  }

  lemma {:induction false} BuildItemNamesQuoteFree(item: Value, project: string, show: Value -> string)
    requires Recognised(item) && BuildItem(item, project, show).Success?
    ensures NamesQuoteFree([BuildItem(item, project, show).value])
    decreases item, 1
  {
    if IsFolderItem(item) {
      BuildNamesQuoteFree(Index(item, "children").items, project, show);
    }
  }

  /** No file item at any depth is named `Cargo.toml`. */
  ghost predicate ItemHasNoManifest(item: Value)
    decreases item, 1
  {
    && !(IsFileItem(item) && IsText(Index(item, "name"), ManifestFile))
    && (item.Object? && "children" in item.fields && item.fields["children"].Array?
        ==> HasNoManifest(item.fields["children"].items))
  }

  ghost predicate HasNoManifest(items: seq<Value>)
    decreases items, 2
  {
    forall i :: 0 <= i < |items| ==> ItemHasNoManifest(items[i])
  }

  /** Without a `Cargo.toml` file the tree is the same whatever the project is called. */
  lemma {:induction false} ProjectNameUnused(items: seq<Value>, p1: string, p2: string, show: Value -> string)
    requires HasNoManifest(items)
    ensures Build(items, p1, show) == Build(items, p2, show)
    decreases items, 2
  {
    if |items| > 0 {
      assert HasNoManifest(items[1..]) by {
        assert forall i :: 0 < i < |items| ==> items[i] == items[1..][i - 1];
      }
      ProjectNameUnused(items[1..], p1, p2, show);
      if Recognised(items[0]) {
        ItemProjectNameUnused(items[0], p1, p2, show);
      }
    }
  }

  lemma {:induction false} ItemProjectNameUnused(item: Value, p1: string, p2: string, show: Value -> string)
    requires Recognised(item) && ItemHasNoManifest(item)
    ensures BuildItem(item, p1, show) == BuildItem(item, p2, show)
    decreases item, 1
  {
    if IsFolderItem(item) {
      if Index(item, "children").Array? {
        ProjectNameUnused(Index(item, "children").items, p1, p2, show);
      }
    }
  }

  /** The name a `Cargo.toml` file item is stored under. */
  function ManifestStoredName(show: Value -> string): (r: string)
    ensures '"' !in r
    ensures forall item :: IsText(Index(item, "name"), ManifestFile) ==> StoredName(item, show) == r
  {
    Without(show(Str(ManifestFile)), '"')
  }

  /**
   * Two trees with the same shape and the same names at every depth, whose
   * file contents agree everywhere except, possibly, in files named `exempt`.
   */
  ghost predicate AgreeExceptIn(a: seq<Node>, b: seq<Node>, exempt: string)
  {
    && |a| == |b|
    && forall i :: 0 <= i < |a| ==>
      && a[i].name == b[i].name
      && (a[i].File? <==> b[i].File?)
      && (a[i].File? && a[i].name != exempt ==> a[i].content == b[i].content)
      && (a[i].Folder? ==> AgreeExceptIn(a[i].children, b[i].children, exempt))
  }

  /**
   * The project name reaches only the `Cargo.toml` files: built for two
   * names, a manifest succeeds for both or for neither, and the two trees
   * agree in shape, in every name and in every other file's content.
   */
  lemma {:induction false} ProjectNameConfined(items: seq<Value>, p1: string, p2: string, show: Value -> string)
    ensures Build(items, p1, show).Success? <==> Build(items, p2, show).Success?
    ensures Build(items, p1, show).Success? ==>
      AgreeExceptIn(Build(items, p1, show).value, Build(items, p2, show).value, ManifestStoredName(show))
    decreases items, 2
  {
    BuildSucceedsIff(items, p1, show);
    BuildSucceedsIff(items, p2, show);
    if |items| > 0 && Build(items, p1, show).Success? {
      ProjectNameConfined(items[1..], p1, p2, show);
      if Recognised(items[0]) {
        ItemProjectNameConfined(items[0], p1, p2, show);
        var a := Build(items, p1, show).value;
        var b := Build(items, p2, show).value;
        var a' := Build(items[1..], p1, show).value;
        var b' := Build(items[1..], p2, show).value;
        assert a == [BuildItem(items[0], p1, show).value] + a';
        assert b == [BuildItem(items[0], p2, show).value] + b';
        assert forall i :: 0 < i < |a| ==> a[i] == a'[i - 1] && b[i] == b'[i - 1];
      }
    }
  }

  lemma {:induction false} ItemProjectNameConfined(item: Value, p1: string, p2: string, show: Value -> string)
    requires Recognised(item) && BuildItem(item, p1, show).Success?
    ensures BuildItem(item, p2, show).Success?
    ensures AgreeExceptIn([BuildItem(item, p1, show).value], [BuildItem(item, p2, show).value], ManifestStoredName(show))
    decreases item, 1
  {
    if IsFolderItem(item) {
      ProjectNameConfined(Index(item, "children").items, p1, p2, show);
    }
  }

  /**
   * A name the serializer writes as it is comes back unchanged; the name
   * `Cargo.toml`, for one, is stored as `Cargo.toml`.
   */
  lemma StoredVerbatimName(item: Value, t: string, show: Value -> string)
    requires RendersStrings(show) && Index(item, "name") == Str(t) && Verbatim(t)
    ensures StoredName(item, show) == t
  {
    EscapeBodyVerbatim(t);
    assert '"' !in t;
    WithoutAppend("\"" + t, "\"", '"');
    WithoutAppend("\"", t, '"');
    WithoutAbsent(t, '"');
  }

  /**
   * A quotation mark inside a name is lost and the backslash that escaped it
   * is kept: `a"b` is stored as `a\b`.
   */
  lemma QuoteInNameMisread(item: Value, u: string, v: string, show: Value -> string)
    requires RendersStrings(show) && Index(item, "name") == Str(u + "\"" + v)
    requires Verbatim(u) && Verbatim(v)
    ensures StoredName(item, show) == u + "\\" + v
  {
    var t := u + "\"" + v;
    assert EscapeBody(t) == u + "\\\"" + v by {
      EscapeBodyAppend(u + "\"", v);
      EscapeBodyAppend(u, "\"");
      EscapeBodyVerbatim(u);
      EscapeBodyVerbatim(v);
      assert EscapeBody("\"") == "\\\"" by {
        assert "\""[1..] == [];
      }
    }
    assert show(Index(item, "name")) == "\"" + u + "\\\"" + v + "\"";
    assert '"' !in u && '"' !in v;
    WithoutEscapedQuote(u, v);
  }

  lemma WithoutEscapedQuote(u: string, v: string)
    requires '"' !in u && '"' !in v
    ensures Without("\"" + u + "\\\"" + v + "\"", '"') == u + "\\" + v
  {
    var q := "\"";
    var bq := "\\\"";
    var s1 := q + u;
    var s2 := s1 + bq;
    var s3 := s2 + v;
    var s4 := s3 + q;
    assert Without(q, '"') == [] by {
      WithoutCons('"', [], '"');
      assert ['"'] + [] == q;
    }
    assert Without(bq, '"') == "\\" by {
      WithoutCons('"', [], '"');
      WithoutCons('\\', q, '"');
      assert ['"'] + [] == q && ['\\'] + q == bq;
    }
    assert Without(s1, '"') == u by {
      WithoutAbsent(u, '"');
      WithoutAppend(q, u, '"');
    }
    assert Without(s2, '"') == u + "\\" by {
      WithoutAppend(s1, bq, '"');
    }
    assert Without(s3, '"') == u + "\\" + v by {
      WithoutAbsent(v, '"');
      WithoutAppend(s2, v, '"');
    }
    assert Without(s4, '"') == u + "\\" + v by {
      WithoutAppend(s3, q, '"');
    }
  }

  /**
   * A plain content string survives building: a file holds it as written,
   * and `Cargo.toml` holds it with the placeholders replaced.
   */
  lemma FileContentRoundTrip(item: Value, t: string, project: string, show: Value -> string)
    requires RendersStrings(show) && Index(item, "content") == Str(t) && Plain(t)
    ensures !IsText(Index(item, "name"), ManifestFile) ==> FileContent(item, project, show) == t
    ensures IsText(Index(item, "name"), ManifestFile)
      ==> FileContent(item, project, show) == Join(Split(t, Placeholder), project)
  {
    DecodeQuoteString(t);
  }

  /**
   * A file item without `content` renders it as `null` and is written as
   * `ul`, in `Cargo.toml` too, since `ul` holds no placeholder.
   */
  lemma MissingContentIsUl(item: Value, project: string, show: Value -> string)
    requires show(Null) == "null" && item.Object? && "content" !in item.fields
    ensures FileContent(item, project, show) == "ul"
  {
    assert '\\' !in "null";
    assert DropEnds("null") == "ul";
    AbsentHeadNoMatch("ul", Placeholder);
    ReplaceIsSplitJoin("ul", Placeholder, project);
  }
}

=== FILE: escape.dfy ===
/**
 * The transport form of file contents. The manifest serializer writes a JSON
 * string wrapped in quotation marks, with `"` and `\` escaped, the short
 * escapes for backspace, form feed, line feed, carriage return and tab, and
 * `\u00xx` with lower-case hex digits for the other control characters: one
 * of the escapings section 7 of RFC 8259 allows. The tree builder undoes
 * only part of that.
 */
module Escape {

  import opened Text

  /** Text the serializer writes as it is: no quotation mark, no backslash, no control character. */
  predicate Verbatim(t: string)
  {
    forall c :: c in t ==> c != '"' && c != '\\' && c as int >= 0x20
  }

  /** The escape the serializer writes for one character. */
  function EscapeChar(c: char): (r: string)
    ensures |r| >= 1
    ensures r == [c] <==> c != '"' && c != '\\' && c as int >= 0x20
  {
    if c == '"' then "\\\""
    else if c == '\\' then "\\\\"
    else if c == '\n' then "\\n"
    else if c == '\r' then "\\r"
    else if c == '\t' then "\\t"
    else if c as int == 0x08 then "\\b"
    else if c as int == 0x0C then "\\f"
    else if c as int < 0x20 then "\\u00" + [HexDigit(c as int / 16), HexDigit(c as int % 16)]
    else [c]
  }

  function HexDigit(d: int): char
    requires 0 <= d < 16
  {
    "0123456789abcdef"[d]
  }

  /** The escaped characters of `t`, without the surrounding quotation marks. */
  function EscapeBody(t: string): string
  {
    if |t| == 0 then [] else EscapeChar(t[0]) + EscapeBody(t[1..])
  }

  /** The serializer copies verbatim text unchanged. */
  lemma {:induction false} EscapeBodyVerbatim(t: string)
    requires Verbatim(t)
    ensures EscapeBody(t) == t
    decreases |t|
  {
    if |t| > 0 {
      assert t[0] in t;
      assert forall c :: c in t[1..] ==> c in t;
      EscapeBodyVerbatim(t[1..]);
      assert t == [t[0]] + t[1..];
    }
  }

  /** The serializer escapes character by character. */
  lemma {:induction false} EscapeBodyAppend(a: string, b: string)
    ensures EscapeBody(a + b) == EscapeBody(a) + EscapeBody(b)
    decreases |a|
  {
    if |a| > 0 {
      assert (a + b)[1..] == a[1..] + b;
      EscapeBodyAppend(a[1..], b);
    } else {
      assert a + b == b;
    }
  }

  /** The serialized form of the JSON string `t`. */
  function QuoteString(t: string): (r: string)
    ensures |r| >= 2 && r[0] == '"' && r[|r| - 1] == '"'
  {
    "\"" + EscapeBody(t) + "\""
  }

  /**
   * The builder's decoding of a serialized content value: every two-character
   * `\n` becomes a line break, then the first and last character are dropped,
   * then every `\"` becomes `"`. Nothing else is unescaped.
   */
  function Decode(serialized: string): (r: string)
    ensures '\\' !in serialized ==> r == DropEnds(serialized)
  {
    DecodeWithoutEscapes(serialized);
    Replace(DropEnds(Replace(serialized, "\\n", "\n")), "\\\"", "\"")
  }

  /** Without a backslash both rewriting passes find nothing to replace. */
  lemma DecodeWithoutEscapes(serialized: string)
    ensures '\\' !in serialized ==>
      Replace(DropEnds(Replace(serialized, "\\n", "\n")), "\\\"", "\"") == DropEnds(serialized)
  {
    if '\\' !in serialized {
      AbsentHeadNoMatch(serialized, "\\n");
      var dropped := DropEnds(serialized);
      assert '\\' !in dropped by {
        if |serialized| >= 2 {
          assert forall c :: c in dropped ==> c in serialized;
        }
      }
      AbsentHeadNoMatch(dropped, "\\\"");
    }
  }

  /** Text without a backslash. */
  predicate BackslashFree(t: string)
  {
    forall i :: 0 <= i < |t| ==> t[i] != '\\'
  }

  /** Text the serializer escapes with `\"` and `\n` only: no backslash, no control character but the line feed. */
  predicate Plain(t: string)
  {
    forall i :: 0 <= i < |t| ==> t[i] != '\\' && (t[i] == '\n' || t[i] as int >= 0x20)
  }

  /** `t` with its quotation marks escaped as `\"` and its line feeds as `\n`. */
  function EscapeMinimal(t: string): string
  {
    if |t| == 0 then [] else EscapeMinimalChar(t[0]) + EscapeMinimal(t[1..])
  }

  function EscapeMinimalChar(c: char): string
  {
    if c == '"' then "\\\"" else if c == '\n' then "\\n" else [c]
  }

  /** `t` with only its quotation marks escaped. */
  function EscapeQuotes(t: string): string
  {
    if |t| == 0 then [] else EscapeQuoteChar(t[0]) + EscapeQuotes(t[1..])
  }

  function EscapeQuoteChar(c: char): string
  {
    if c == '"' then "\\\"" else [c]
  }

  /** On plain text the serializer escapes quotation marks and line feeds and nothing else. */
  lemma {:induction false} SerializerMinimalOnPlain(t: string)
    requires Plain(t)
    ensures EscapeBody(t) == EscapeMinimal(t)
    decreases |t|
  {
    if |t| > 0 {
      assert Plain(t[1..]);
      SerializerMinimalOnPlain(t[1..]);
    }
  }

  /** The first pass turns the escaped line feeds back into line breaks. */
  lemma {:induction false} LineFeedsRestored(t: string)
    requires BackslashFree(t)
    ensures Replace(EscapeMinimal(t) + "\"", "\\n", "\n") == EscapeQuotes(t) + "\""
    decreases |t|
  {
    if |t| == 0 {
      assert EscapeMinimal(t) + "\"" == ['"'] + [];
      ReplaceCopies('"', [], "\\n", "\n");
    } else {
      assert BackslashFree(t[1..]);
      LineFeedsRestored(t[1..]);
      LineFeedRestoredStep(t[0], EscapeMinimal(t[1..]) + "\"", EscapeQuotes(t[1..]) + "\"");
      assert EscapeMinimal(t) + "\"" == EscapeMinimalChar(t[0]) + (EscapeMinimal(t[1..]) + "\"");
      assert EscapeQuotes(t) + "\"" == EscapeQuoteChar(t[0]) + (EscapeQuotes(t[1..]) + "\"");
    }
  }

  /** One character of the first pass. */
  lemma LineFeedRestoredStep(c: char, tail: string, decoded: string)
    requires c != '\\'
    requires Replace(tail, "\\n", "\n") == decoded
    ensures Replace(EscapeMinimalChar(c) + tail, "\\n", "\n") == EscapeQuoteChar(c) + decoded
  {
    var pat := "\\n";
    if c == '"' {
      assert EscapeMinimalChar(c) + tail == ['\\'] + (['"'] + tail);
      assert (['\\'] + (['"'] + tail))[1] == '"';
      ReplaceCopies('\\', ['"'] + tail, pat, "\n");
      ReplaceCopies('"', tail, pat, "\n");
    } else if c == '\n' {
      ReplaceMatch(tail, pat, "\n");
    } else {
      assert ([c] + tail)[0] == c && pat[0] == '\\';
      ReplaceCopies(c, tail, pat, "\n");
    }
  }

  /** The last pass turns the escaped quotation marks back into quotation marks. */
  lemma {:induction false} QuotesRestored(t: string)
    requires BackslashFree(t)
    ensures Replace(EscapeQuotes(t), "\\\"", "\"") == t
    decreases |t|
  {
    var pat := "\\\"";
    if |t| > 0 {
      assert BackslashFree(t[1..]);
      QuotesRestored(t[1..]);
      var tail := EscapeQuotes(t[1..]);
      if t[0] == '"' {
        assert EscapeQuotes(t) == pat + tail;
        ReplaceMatch(tail, pat, "\"");
      } else {
        assert EscapeQuotes(t) == [t[0]] + tail;
        assert ([t[0]] + tail)[0] == t[0] && pat[0] == '\\';
        ReplaceCopies(t[0], tail, pat, "\"");
      }
      assert t == [t[0]] + t[1..];
    }
  }

  /**
   * Decoding undoes the minimal encoding of backslash-free text: wrapping `t`
   * in quotation marks and escaping its quotation marks and line feeds, then
   * decoding, gives `t` back.
   */
  lemma DecodeRoundTrip(t: string)
    requires BackslashFree(t)
    ensures Decode("\"" + EscapeMinimal(t) + "\"") == t
  {
    var s := "\"" + EscapeMinimal(t) + "\"";
    assert s == ['"'] + (EscapeMinimal(t) + "\"");
    assert s[0] == '"';
    assert !("\\n" <= s);
    assert s[1..] == EscapeMinimal(t) + "\"";
    LineFeedsRestored(t);
    var firstPass := Replace(s, "\\n", "\n");
    assert firstPass == "\"" + EscapeQuotes(t) + "\"";
    assert DropEnds(firstPass) == EscapeQuotes(t);
    QuotesRestored(t);
  }

  /** Decoding undoes the serializer on plain text. */
  lemma DecodeQuoteString(t: string)
    requires Plain(t)
    ensures Decode(QuoteString(t)) == t
  {
    SerializerMinimalOnPlain(t);
    DecodeRoundTrip(t);
  }

  /**
   * A backslash followed by `n` does not survive: its serialization `\\n`
   * still contains `\n`, which the first pass turns into a line break.
   */
  lemma EscapedBackslashMisread()
    ensures Decode(QuoteString("\\n")) == "\\\n"
    ensures Decode(QuoteString("\\n")) != "\\n"
  {
    assert EscapeBody(['\\', 'n']) == ['\\', '\\', 'n'] by {
      assert ['\\', 'n'][1..] == ['n'] && ['n'][1..] == [];
    }
    assert QuoteString("\\n") == ['"', '\\', '\\', 'n', '"'];
    EscapedBackslashFirstPass();
    var firstPass := ['"', '\\', '\n', '"'];
    assert DropEnds(firstPass) == ['\\', '\n'];
    EscapedBackslashLastPass();
    assert ['\\', '\n'] != ['\\', 'n'];
  }

  lemma EscapedBackslashFirstPass()
    ensures Replace(['"', '\\', '\\', 'n', '"'], "\\n", "\n") == ['"', '\\', '\n', '"']
  {
    var lf := "\\n";
    ReplaceCopies('"', [], lf, "\n");
    ReplaceMatch(['"'], lf, "\n");
    assert ['\\', 'n', '"'] == lf + ['"'];
    assert !(lf <= ['\\', '\\', 'n', '"']) by {
      assert ['\\', '\\', 'n', '"'][1] != lf[1];
    }
    ReplaceCopies('\\', ['\\', 'n', '"'], lf, "\n");
    ReplaceCopies('"', ['\\', '\\', 'n', '"'], lf, "\n");
  }

  lemma EscapedBackslashLastPass()
    ensures Replace(['\\', '\n'], "\\\"", "\"") == ['\\', '\n']
  {
    var quote := "\\\"";
    ReplaceCopies('\n', [], quote, "\"");
    assert !(quote <= ['\\', '\n']) by {
      assert ['\\', '\n'][1] != quote[1];
    }
    ReplaceCopies('\\', ['\n'], quote, "\"");
    assert Replace([], quote, "\"") == [];
    assert ['\n'] + [] == ['\n'] && ['\\'] + ['\n'] == ['\\', '\n'];
  }

  /** A tab does not survive either: its escape `\t` is left as two characters. */
  lemma TabMisread()
    ensures Decode(QuoteString("\t")) == "\\t"
  {
    var lf := "\\n";
    var quote := "\\\"";
    var s := ['"', '\\', 't', '"'];
    assert QuoteString("\t") == s;
    ReplaceCopies('"', [], lf, "\n");
    ReplaceCopies('t', ['"'], lf, "\n");
    assert !(lf <= ['\\', 't', '"']) by {
      assert ['\\', 't', '"'][1] != lf[1];
    }
    ReplaceCopies('\\', ['t', '"'], lf, "\n");
    ReplaceCopies('"', ['\\', 't', '"'], lf, "\n");
    assert Replace(s, lf, "\n") == s;
    assert DropEnds(s) == ['\\', 't'];
    ReplaceCopies('t', [], quote, "\"");
    assert !(quote <= ['\\', 't']) by {
      assert ['\\', 't'][1] != quote[1];
    }
    ReplaceCopies('\\', ['t'], quote, "\"");
  }
}

=== FILE: filesystem.dfy ===
/**
 * The filesystem the handler touches, as a map from paths to entries, and
 * the two standard-library operations the materializer uses on it.
 *
 * A path is a sequence of components below the process's working
 * directory. The empty path is that working directory: it always exists, it
 * is a directory, and it is no entry of the map.
 */
module FileSystem {

  import opened Results

  type Path = seq<string>

  datatype Entry = DirEntry | FileEntry(content: string)

  type Fs = map<Path, Entry>

  function Parent(p: Path): (r: Path)
    requires |p| > 0
    ensures r + [p[|p| - 1]] == p
  {
    p[..|p| - 1]
  }

  /** `p.exists()`. */
  predicate Exists(fs: Fs, p: Path)
  {
    |p| == 0 || p in fs
  }

  /** `p.is_dir()`. */
  predicate IsDir(fs: Fs, p: Path)
  {
    |p| == 0 || (p in fs && fs[p].DirEntry?)
  }

  predicate IsFile(fs: Fs, p: Path)
  {
    p in fs && fs[p].FileEntry?
  }

  /** A filesystem is a tree: every entry lies in a directory. */
  ghost predicate WellFormed(fs: Fs)
  {
    forall p :: p in fs ==> |p| > 0 && IsDir(fs, Parent(p))
  }

  /** `fs'` holds every entry of `fs` unchanged. */
  ghost predicate Extends(fs: Fs, fs': Fs)
  {
    forall q :: q in fs ==> q in fs' && fs'[q] == fs[q]
  }

  /** In a tree, every ancestor of a directory is a directory. */
  lemma {:induction false} AncestorsOfDirAreDirs(fs: Fs, p: Path, k: nat)
    requires WellFormed(fs) && IsDir(fs, p) && k <= |p|
    ensures IsDir(fs, p[..k])
    decreases |p|
  {
    if k < |p| {
      assert p[..k] == Parent(p)[..k];
      AncestorsOfDirAreDirs(fs, Parent(p), k);
    } else {
      assert p[..k] == p;
    }
  }

  /**
   * `create_dir_all(p)`: makes `p` and every missing ancestor a directory.
   * An existing directory is accepted as it is; an existing file at `p` or
   * on the way to it is an error, and an error changes nothing.
   */
  function CreateDirAll(fs: Fs, p: Path): (r: Option<Fs>)
    ensures r.Some? ==> IsDir(r.value, p)
    ensures r.Some? ==> Extends(fs, r.value)
    decreases |p|
  {
    if |p| == 0 then Some(fs)
    else if p in fs then
      if fs[p].DirEntry? then Some(fs) else None
    else if IsDir(fs, Parent(p)) then Some(fs[p := DirEntry])
    else if Parent(p) in fs then None
    else
      match CreateDirAll(fs, Parent(p))
      case None => None
      case Some(fs1) => Some(fs1[p := DirEntry])
  }

  /** `create_dir_all(p)` adds directories only, and only on the way to `p`. */
  lemma {:induction false} CreateDirAllAddsOnWay(fs: Fs, p: Path)
    requires CreateDirAll(fs, p).Some?
    ensures forall q :: q in CreateDirAll(fs, p).value && q !in fs ==>
      0 < |q| && q <= p && CreateDirAll(fs, p).value[q] == DirEntry
    decreases |p|
  {
    if |p| > 0 && p !in fs && !IsDir(fs, Parent(p)) {
      CreateDirAllAddsOnWay(fs, Parent(p));
    }
  }

  /** Neither `p` nor any ancestor of it is a file. */
  ghost predicate NoFileOnWay(fs: Fs, p: Path)
  {
    forall k :: 0 < k <= |p| ==> !IsFile(fs, p[..k])
  }

  lemma NoFileOnWayStep(fs: Fs, p: Path)
    requires |p| > 0
    ensures NoFileOnWay(fs, p) <==> NoFileOnWay(fs, Parent(p)) && !IsFile(fs, p)
  {
    assert p[..|p|] == p;
    forall k | 0 < k < |p|
      ensures p[..k] == Parent(p)[..k]
    {
    }
  }

  /** On a tree, `create_dir_all(p)` succeeds exactly when neither `p` nor an ancestor of it is a file. */
  lemma {:induction false} CreateDirAllSucceedsIff(fs: Fs, p: Path)
    requires WellFormed(fs)
    ensures CreateDirAll(fs, p).Some? <==> NoFileOnWay(fs, p)
    decreases |p|
  {
    if |p| == 0 {
    } else {
      NoFileOnWayStep(fs, p);
      if p in fs {
        if fs[p].DirEntry? {
          NoFileAboveDir(fs, p);
        }
      } else if IsDir(fs, Parent(p)) {
        NoFileAboveDir(fs, Parent(p));
      } else if Parent(p) in fs {
        NoFileOnWayStep(fs, Parent(p));
      } else {
        CreateDirAllSucceedsIff(fs, Parent(p));
      }
    }
  }

  /** `create_dir_all` keeps a tree a tree. */
  lemma {:induction false} CreateDirAllKeepsWellFormed(fs: Fs, p: Path)
    requires WellFormed(fs) && CreateDirAll(fs, p).Some?
    ensures WellFormed(CreateDirAll(fs, p).value)
    decreases |p|
  {
    if |p| == 0 || p in fs {
    } else if IsDir(fs, Parent(p)) {
      PlaceKeepsWellFormed(fs, p, DirEntry);
    } else {
      CreateDirAllKeepsWellFormed(fs, Parent(p));
      CreateDirAllAddsOnWay(fs, Parent(p));
      var fs1 := CreateDirAll(fs, Parent(p)).value;
      assert p !in fs1;
      PlaceKeepsWellFormed(fs1, p, DirEntry);
    }
  }

  /** No entry on the way to a directory of a tree is a file. */
  lemma NoFileAboveDir(fs: Fs, p: Path)
    requires IsDir(fs, p)
    ensures WellFormed(fs) ==> NoFileOnWay(fs, p)
  {
    if WellFormed(fs) {
      forall k | 0 < k <= |p|
        ensures !IsFile(fs, p[..k])
      {
        AncestorsOfDirAreDirs(fs, p, k);
      }
    }
  }

  /**
   * `File::create(p)` followed by writing `content`: it fails when the
   * parent of `p` is not a directory or `p` is a directory; otherwise `p`
   * holds exactly `content` afterwards (an existing file is truncated) and
   * every other entry is unchanged.
   */
  function WriteFile(fs: Fs, p: Path, content: string): (r: Option<Fs>)
    requires |p| > 0
    ensures r.Some? <==> IsDir(fs, Parent(p)) && !IsDir(fs, p)
    ensures r.Some? ==> r.value.Keys == fs.Keys + {p} && r.value[p] == FileEntry(content)
    ensures r.Some? ==> forall q :: q in fs && q != p ==> r.value[q] == fs[q]
    ensures WellFormed(fs) && r.Some? ==> WellFormed(r.value)
  {
    if IsDir(fs, Parent(p)) && !IsDir(fs, p) then
      PlaceKeepsWellFormed(fs, p, FileEntry(content));
      Some(fs[p := FileEntry(content)])
    else
      None
  }

  /**
   * Placing an entry inside a directory keeps a tree a tree, unless it
   * turns a directory into a file.
   */
  lemma PlaceKeepsWellFormed(fs: Fs, p: Path, e: Entry)
    requires |p| > 0 && IsDir(fs, Parent(p)) && !IsDir(fs, p)
    ensures WellFormed(fs) ==> WellFormed(fs[p := e])
  {
    if WellFormed(fs) {
      var fs' := fs[p := e];
      forall q | q in fs'
        ensures |q| > 0 && IsDir(fs', Parent(q))
      {
        if q != p {
          assert IsDir(fs, Parent(q));
          assert Parent(q) != p;
        }
      }
    }
  }
}

=== FILE: handler.dfy ===
/**
 * The driver (`create_ruxt_app`): names the project after the target
 * directory, builds the tree from the manifest, checks it against the
 * filesystem, and writes it only when nothing of it exists yet.
 *
 * The target is the command-line path as a sequence of components, the
 * working directory's own name is a parameter, and the parsed manifest is
 * given: reading or fetching it is not part of this model.
 */
module Handler {

  import opened Results
  import opened Json
  import opened Text
  import opened Escape
  import opened FileSystem
  import opened Tree
  import opened Builder
  import opened Validator
  import opened Materializer

  /** How a run ends: normally, or at one of the driver's panics. */
  datatype Status =
    | Created
    | AlreadyExists
    | NoProjectName
    | MalformedManifest(buildError: BuildError)
    | CreateFailed(ioError: IoError)

  datatype Run = Run(fs: Fs, status: Status)

  /**
   * The directory a path names below the working directory, as the path's
   * components list it: `.` components name the directory they stand in and
   * empty ones (a trailing or repeated slash) name nothing, so both are
   * dropped.
   */
  function Resolve(arg: seq<string>): (r: Path)
    ensures "." !in r && "" !in r
    ensures multiset(r) == multiset(arg)["." := 0]["" := 0]
  {
    var kept := Without(Without(arg, "."), "");
    assert multiset(kept)["."] == 0;
    kept
  }

  /**
   * The path equals `.`: it starts with `.` and nothing but `.` and empty
   * components follow, as in `./` or `./.`. The empty path does not.
   */
  predicate IsCurrentDir(arg: seq<string>)
  {
    |arg| > 0 && arg[0] == "." && Resolve(arg) == []
  }

  /**
   * `get_name`: the working directory's name for a path equal to `.`, the
   * last component otherwise. A path that ends in `..` or names nothing (the
   * empty path, a path of slashes) has no name, and
   * neither has a working directory without one (the file system root).
   */
  function GetName(arg: seq<string>, cwdName: Option<string>): (r: Option<string>)
    ensures IsCurrentDir(arg) ==> r == cwdName
    ensures !IsCurrentDir(arg) && r.Some? ==> |Resolve(arg)| > 0 && Resolve(arg) == Parent(Resolve(arg)) + [r.value]
    ensures !IsCurrentDir(arg) && r.Some? ==> r.value != "." && r.value != ".."
    ensures !IsCurrentDir(arg) && Resolve(arg) == [] ==> r.None?
    ensures !IsCurrentDir(arg) && |Resolve(arg)| > 0 && r.None? ==> Resolve(arg)[|Resolve(arg)| - 1] == ".."
  {
    var target := Resolve(arg);
    if IsCurrentDir(arg) then cwdName
    else if |target| == 0 || target[|target| - 1] == ".." then None
    else Some(target[|target| - 1])
  }

  /**
   * One run against the filesystem `fs`: the name, then the tree, then the
   * check, then the writes. Every outcome that reaches no write, successful
   * or failed, leaves the filesystem as it was, and no outcome changes or
   * removes an entry that existed before.
   */
  function CreateApp(arg: seq<string>, cwdName: Option<string>, manifest: seq<Value>,
                     show: Value -> string, fs: Fs): (run: Run)
    ensures !run.status.Created? && !run.status.CreateFailed? ==> run.fs == fs
    ensures Extends(fs, run.fs)
    ensures run.status == AlreadyExists <==>
      && GetName(arg, cwdName).Some?
      && Build(manifest, GetName(arg, cwdName).value, show).Success?
      && !(Layout(Build(manifest, GetName(arg, cwdName).value, show).value, Resolve(arg)).Keys !! fs.Keys)
  {
    match GetName(arg, cwdName)
    case None => Run(fs, NoProjectName)
    case Some(name) =>
      match Build(manifest, name, show)
      case Failure(e) => Run(fs, MalformedManifest(e))
      case Success(nodes) =>
        var root := Resolve(arg);
        if !Validate(nodes, root, fs) then Run(fs, AlreadyExists)
        else
          var e := CreateFiles(nodes, root, fs);
          match e.error
          case None => Run(e.fs, Created)
          case Some(err) => Run(e.fs, CreateFailed(err))
  }

  /**
   * Into an existing target directory, a tree with distinct sibling names
   * none of whose paths exist is written in full: the filesystem afterwards
   * is the old one with the tree laid over it.
   */
  lemma CreatesTree(arg: seq<string>, cwdName: Option<string>, manifest: seq<Value>,
                    show: Value -> string, fs: Fs, name: string, nodes: seq<Node>)
    requires GetName(arg, cwdName) == Some(name) && Build(manifest, name, show) == Success(nodes)
    requires IsDir(fs, Resolve(arg)) && DistinctNames(nodes)
    requires Layout(nodes, Resolve(arg)).Keys !! fs.Keys
    ensures CreateApp(arg, cwdName, manifest, show, fs) == Run(fs + Layout(nodes, Resolve(arg)), Created)
  {
    CreateFilesSucceeds(nodes, Resolve(arg), fs);
    CreateFilesPlacesLayout(nodes, Resolve(arg), fs);
  }

  /**
   * Into an existing target directory, a run, even one that fails halfway,
   * creates entries only strictly below the target.
   */
  lemma WritesStayInTarget(arg: seq<string>, cwdName: Option<string>, manifest: seq<Value>,
                           show: Value -> string, fs: Fs)
    requires IsDir(fs, Resolve(arg))
    ensures forall q :: q in CreateApp(arg, cwdName, manifest, show, fs).fs && q !in fs ==>
      |q| > |Resolve(arg)| && q[..|Resolve(arg)|] == Resolve(arg)
  {
    var run := CreateApp(arg, cwdName, manifest, show, fs);
    WrittenTree(arg, cwdName, manifest, show, fs);
    if run.fs != fs {
      var nodes := Build(manifest, GetName(arg, cwdName).value, show).value;
      CreateFilesStaysOnTree(nodes, Resolve(arg), fs);
      NewEntriesOnTree(fs, run.fs, nodes, Resolve(arg));
    }
  }

  /** A run that changes the filesystem is the materializer's run on the built tree. */
  lemma WrittenTree(arg: seq<string>, cwdName: Option<string>, manifest: seq<Value>,
                    show: Value -> string, fs: Fs)
    ensures var run := CreateApp(arg, cwdName, manifest, show, fs);
      run.fs != fs ==>
        && GetName(arg, cwdName).Some?
        && Build(manifest, GetName(arg, cwdName).value, show).Success?
        && run.fs == CreateFiles(Build(manifest, GetName(arg, cwdName).value, show).value, Resolve(arg), fs).fs
  {
  }

  lemma NewEntriesOnTree(fs: Fs, fs': Fs, nodes: seq<Node>, root: Path)
    requires forall q :: q in fs' && q !in Layout(nodes, root) ==> q in fs
    ensures forall q :: q in fs' && q !in fs ==> |q| > |root| && q[..|root|] == root
  {
  }

  /** A run keeps a tree a tree. */
  lemma CreateAppKeepsWellFormed(arg: seq<string>, cwdName: Option<string>, manifest: seq<Value>,
                                 show: Value -> string, fs: Fs)
    requires WellFormed(fs)
    ensures WellFormed(CreateApp(arg, cwdName, manifest, show, fs).fs)
  {
    var run := CreateApp(arg, cwdName, manifest, show, fs);
    WrittenTree(arg, cwdName, manifest, show, fs);
    if run.fs != fs {
      var nodes := Build(manifest, GetName(arg, cwdName).value, show).value;
      CreateFilesKeepsWellFormed(nodes, Resolve(arg), fs);
    }
  }

  /** A top-level node whose path exists stops the run before anything is written. */
  lemma TopLevelCollision(arg: seq<string>, cwdName: Option<string>, manifest: seq<Value>,
                          show: Value -> string, fs: Fs, name: string, nodes: seq<Node>, i: nat)
    requires GetName(arg, cwdName) == Some(name) && Build(manifest, name, show) == Success(nodes)
    requires i < |nodes| && Resolve(arg) + [nodes[i].name] in fs
    ensures CreateApp(arg, cwdName, manifest, show, fs) == Run(fs, AlreadyExists)
  {
    NodePathInLayout(nodes, Resolve(arg), i);
  }

  /** A file item whose name is written as it is builds a file stored under that name. */
  lemma FileItemStored(item: Value, name: string, project: string, show: Value -> string)
    requires RendersStrings(show) && Verbatim(name)
    requires IsFileItem(item) && IsText(Index(item, "name"), name)
    ensures Recognised(item) && BuildItem(item, project, show).Success?
    ensures BuildItem(item, project, show).value.name == name
  {
    assert !IsFolderItem(item);
    StoredVerbatimName(item, name, show);
  }

  /** A recognised top-level item of a manifest that builds becomes one of its top-level nodes. */
  lemma ItemBecomesNode(item: Value, manifest: seq<Value>, project: string, show: Value -> string)
    returns (j: nat)
    requires Recognised(item) && item in manifest && Build(manifest, project, show).Success?
    ensures j < |Build(manifest, project, show).value|
    ensures Success(Build(manifest, project, show).value[j]) == BuildItem(item, project, show)
  {
    var k :| 0 <= k < |manifest| && manifest[k] == item;
    assert item in Kept(manifest);
    var i :| 0 <= i < |Kept(manifest)| && Kept(manifest)[i] == item;
    BuildFollowsManifest(manifest, project, show);
    j := i;
  }

  /** A one-component target other than `.` and `..` is that directory and gives the project its name. */
  lemma NamedAfterSingleComponent(out: string)
    requires out != "." && out != ".." && out != ""
    ensures Resolve([out]) == [out] && GetName([out], None) == Some(out)
  {
    assert Resolve([out]) == [out] by {
      WithoutCons(out, [], ".");
      assert [out] + [] == [out];
      WithoutCons(out, [], "");
    }
  }

  /** `out/` resolves to `out`: the empty component after the slash is dropped. */
  lemma SlashDropped(out: string)
    requires out != "." && out != ""
    ensures Resolve([out, ""]) == [out]
  {
    var slash: seq<string> := [""];
    assert [out, ""] == [out] + slash;
    assert Without(slash, ".") == slash by { WithoutCons("", [], "."); }
    assert Without([out] + slash, ".") == [out] + slash by { WithoutCons(out, slash, "."); }
    assert Without(slash, "") == [] by { WithoutCons("", [], ""); }
    assert Without([out] + slash, "") == [out] by { WithoutCons(out, slash, ""); }
  }

  /** A trailing slash changes nothing: `out/` is named `out`, as `out` is. */
  lemma TrailingSlashIgnored(out: string, cwdName: Option<string>)
    requires out != "." && out != ".." && out != ""
    ensures GetName([out, ""], cwdName) == Some(out)
  {
    SlashDropped(out);
  }

  /** `./` is the working directory, as `.` is, and takes its name. */
  lemma CurrentDirWithSlash(cwdName: Option<string>)
    ensures IsCurrentDir([".", ""]) && GetName([".", ""], cwdName) == cwdName
  {
    var slash: seq<string> := [""];
    assert [".", ""] == ["."] + slash;
    assert Without(slash, ".") == slash by { WithoutCons("", [], "."); }
    assert Without(["."] + slash, ".") == slash by { WithoutCons(".", slash, "."); }
    assert Without(slash, "") == [] by { WithoutCons("", [], ""); }
  }

  /** The empty path is not the working directory and has no name. */
  lemma EmptyPathUnnamed(cwdName: Option<string>)
    ensures !IsCurrentDir([""]) && GetName([""], cwdName) == None
  {
    var slash: seq<string> := [""];
    assert Without(slash, ".") == slash by { WithoutCons("", [], "."); }
    assert Without(slash, "") == [] by { WithoutCons("", [], ""); }
  }

  /** A top-level file item whose name is written as it is becomes a top-level node of that name. */
  lemma FileItemNode(item: Value, name: string, manifest: seq<Value>, project: string, show: Value -> string)
    returns (j: nat)
    requires RendersStrings(show) && Verbatim(name)
    requires item in manifest && IsFileItem(item) && IsText(Index(item, "name"), name)
    requires Build(manifest, project, show).Success?
    ensures j < |Build(manifest, project, show).value| && Build(manifest, project, show).value[j].name == name
  {
    FileItemStored(item, name, project, show);
    j := ItemBecomesNode(item, manifest, project, show);
  }

  /**
   * A one-component target `out` that already holds an entry `name` (the
   * file `README.md`, say), and any manifest that builds and has a file item
   * of that name among its top-level items, the name being one the
   * serializer writes as it is: the run reports the collision and leaves the
   * filesystem unchanged.
   */
  lemma ExistingFileCollides(show: Value -> string, out: string, name: string, item: Value,
                             manifest: seq<Value>, fs: Fs)
    requires RendersStrings(show) && Verbatim(name) && out != "." && out != ".." && out != ""
    requires item in manifest && IsFileItem(item) && IsText(Index(item, "name"), name)
    requires Build(manifest, out, show).Success?
    requires [out, name] in fs
    ensures CreateApp([out], None, manifest, show, fs) == Run(fs, AlreadyExists)
  {
    NamedAfterSingleComponent(out);
    var j := FileItemNode(item, name, manifest, out, show);
    var nodes := Build(manifest, out, show).value;
    assert [out] + [nodes[j].name] == [out, name];
    TopLevelCollision([out], None, manifest, show, fs, out, nodes, j);
  }
}

=== FILE: json.dfy ===
/**
 * The untyped manifest: a closed datatype for the JSON values the manifest
 * parser produces, and the two ways the tree builder probes them.
 */
module Json {

  import opened Results

  /**
   * A parsed JSON value. Objects are maps because the parser's default object
   * type keeps one value per key. Numbers are integers here; the builder only
   * compares them with strings or renders them through an abstract `show`, so
   * the choice of number type constrains nothing.
   */
  datatype Value =
    | Null
    | Bool(b: bool)
    | Number(n: int)
    | Str(s: string)
    | Array(items: seq<Value>)
    | Object(fields: map<string, Value>)

  /**
   * `v[key]`: the field's value when `v` is an object holding `key`, and
   * `Null` otherwise. Indexing by a key never fails.
   */
  function Index(v: Value, key: string): (r: Value)
    ensures r != Null ==> v.Object? && key in v.fields && v.fields[key] == r
    ensures v.Object? && key in v.fields ==> r == v.fields[key]
  {
    match v
    case Object(fields) => if key in fields then fields[key] else Null
    case _ => Null
  }

  /**
   * `v == text`: a value equals a string only when it is that JSON string; no
   * other kind of value, in particular not the `Null` of a missing key, does.
   */
  function IsText(v: Value, text: string): (b: bool)
    ensures b <==> v.Str? && v.s == text
  {
    v == Str(text)
  }

  /** `v.as_array()`: the elements of an array, nothing for any other value. */
  function AsArray(v: Value): (r: Option<seq<Value>>)
    ensures r.Some? <==> v.Array?
    ensures r.Some? ==> r.value == v.items
  {
    if v.Array? then Some(v.items) else None
  }
}

=== FILE: materializer.dfy ===
/** Writing the tree to disk (`create_files`). */
module Materializer {

  import opened Results
  import opened FileSystem
  import opened Tree

  /** The two `expect` panics of the materializer, with the path being created. */
  datatype IoError = CreateFileFailed(path: Path) | CreateDirFailed(path: Path)

  /**
   * The filesystem after a run and the panic that ended it, if any. A panic
   * leaves behind whatever was created before it.
   */
  datatype Effect = Effect(fs: Fs, error: Option<IoError>)

  /**
   * Creates the nodes in order below `root`: a file is created (truncating
   * one that exists) and its content written; a folder is created with every
   * missing ancestor and then filled with its children. Nothing is checked
   * beforehand; the first failing step ends the run.
   *
   * Whatever happens, an existing entry off the tree's paths keeps its
   * value, and a tree stays a tree.
   */
  function CreateFiles(nodes: seq<Node>, root: Path, fs: Fs): (e: Effect)
    ensures forall q :: q in fs && q !in Layout(nodes, root) ==> q in e.fs && e.fs[q] == fs[q]
  {
    if |nodes| == 0 then Effect(fs, None)
    else
      var p := root + [nodes[0].name];
      assert p in NodeLayout(nodes[0], root);
      match nodes[0]
      case File(_, content) =>
        (match WriteFile(fs, p, content)
         case None => Effect(fs, Some(CreateFileFailed(p)))
         case Some(fs1) => CreateFiles(nodes[1..], root, fs1))
      case Folder(_, children) =>
        match CreateDirAll(fs, p)
        case None => Effect(fs, Some(CreateDirFailed(p)))
        case Some(fs1) =>
          var inner := CreateFiles(children, p, fs1);
          if inner.error.Some? then inner else CreateFiles(nodes[1..], root, inner.fs)
  }

  /** Creating a folder inside a directory leaves a directory on its path and changes nothing else. */
  lemma CreateDirInDir(fs: Fs, p: Path)
    requires |p| > 0 && IsDir(fs, Parent(p))
    ensures CreateDirAll(fs, p).Some? <==> !IsFile(fs, p)
    ensures CreateDirAll(fs, p).Some? ==> CreateDirAll(fs, p).value == fs[p := DirEntry]
  {
  }

  /** Every path of a tree below `root` is longer than `root`, so `root` keeps its entry. */
  lemma RootKept(nodes: seq<Node>, root: Path, fs: Fs, fs': Fs)
    requires forall q :: q in fs && q !in Layout(nodes, root) ==> q in fs' && fs'[q] == fs[q]
    ensures IsDir(fs, root) ==> IsDir(fs', root)
  {
  }

  lemma UpdateIsUnion(fs: Fs, p: Path, e: Entry)
    ensures fs[p := e] == fs + map[p := e]
  {
  }

  lemma UnionAssoc(a: Fs, b: Fs, c: Fs)
    ensures (a + b) + c == a + (b + c)
  {
  }

  /**
   * Run from a state where `root` is a directory, a run that ends without a
   * panic leaves exactly the old filesystem overlaid with the tree: every
   * folder path is a directory, every file path holds its node's content,
   * and every other entry is as it was.
   */
  lemma {:induction false} CreateFilesPlacesLayout(nodes: seq<Node>, root: Path, fs: Fs)
    requires IsDir(fs, root)
    requires CreateFiles(nodes, root, fs).error.None?
    ensures CreateFiles(nodes, root, fs).fs == fs + Layout(nodes, root)
    decreases nodes
  {
    if |nodes| > 0 {
      var p := root + [nodes[0].name];
      assert Parent(p) == root;
      var rest := nodes[1..];
      match nodes[0]
      case File(_, content) =>
        var fs1 := fs[p := FileEntry(content)];
        assert CreateFiles(nodes, root, fs) == CreateFiles(rest, root, fs1);
        CreateFilesPlacesLayout(rest, root, fs1);
        FileStepLayout(nodes, root, fs);
      case Folder(_, children) =>
        CreateDirInDir(fs, p);
        var fs1 := fs[p := DirEntry];
        var inner := CreateFiles(children, p, fs1);
        CreateFilesPlacesLayout(children, p, fs1);
        RootKept(children, p, fs1, inner.fs);
        assert CreateFiles(nodes, root, fs) == CreateFiles(rest, root, inner.fs);
        CreateFilesPlacesLayout(rest, root, inner.fs);
        FolderStepLayout(nodes, root, fs, inner.fs);
    }
  }

  lemma FileStepLayout(nodes: seq<Node>, root: Path, fs: Fs)
    requires |nodes| > 0 && nodes[0].File?
    ensures fs[root + [nodes[0].name] := FileEntry(nodes[0].content)] + Layout(nodes[1..], root)
         == fs + Layout(nodes, root)
  {
    var here := NodeLayout(nodes[0], root);
    assert Layout(nodes, root) == here + Layout(nodes[1..], root);
    UnionAssoc(fs, here, Layout(nodes[1..], root));
  }

  lemma FolderStepLayout(nodes: seq<Node>, root: Path, fs: Fs, fs2: Fs)
    requires |nodes| > 0 && nodes[0].Folder?
    requires fs2 == fs[root + [nodes[0].name] := DirEntry] + Layout(nodes[0].children, root + [nodes[0].name])
    ensures fs2 + Layout(nodes[1..], root) == fs + Layout(nodes, root)
  {
    var here := NodeLayout(nodes[0], root);
    FolderPlaced(nodes[0], root, fs);
    assert Layout(nodes, root) == here + Layout(nodes[1..], root);
    UnionAssoc(fs, here, Layout(nodes[1..], root));
  }

  /** Run from a state where `root` is a directory, no entry is created off the tree's paths. */
  lemma {:induction false} CreateFilesStaysOnTree(nodes: seq<Node>, root: Path, fs: Fs)
    requires IsDir(fs, root)
    ensures forall q :: q in CreateFiles(nodes, root, fs).fs && q !in Layout(nodes, root) ==> q in fs
    decreases nodes
  {
    if |nodes| > 0 {
      var p := root + [nodes[0].name];
      assert Parent(p) == root;
      var rest := nodes[1..];
      match nodes[0]
      case File(_, content) =>
        if WriteFile(fs, p, content).Some? {
          CreateFilesStaysOnTree(rest, root, WriteFile(fs, p, content).value);
        }
      case Folder(_, children) =>
        CreateDirInDir(fs, p);
        if CreateDirAll(fs, p).Some? {
          var fs1 := fs[p := DirEntry];
          var inner := CreateFiles(children, p, fs1);
          CreateFilesStaysOnTree(children, p, fs1);
          RootKept(children, p, fs1, inner.fs);
          assert root !in Layout(children, p);
          if inner.error.None? {
            CreateFilesStaysOnTree(rest, root, inner.fs);
          }
        }
    }
  }

  /**
   * Run from a state where `root` is a directory, with distinct sibling
   * names, on a filesystem holding none of the tree's paths, no step fails.
   */
  lemma {:induction false} CreateFilesSucceeds(nodes: seq<Node>, root: Path, fs: Fs)
    requires IsDir(fs, root) && DistinctNames(nodes)
    requires Layout(nodes, root).Keys !! fs.Keys
    ensures CreateFiles(nodes, root, fs).error.None?
    decreases nodes, 1
  {
    if |nodes| > 0 {
      if nodes[0].File? {
        FileSucceeds(nodes, root, fs);
      } else {
        FolderSucceeds(nodes, root, fs);
      }
    }
  }

  lemma {:induction false} FileSucceeds(nodes: seq<Node>, root: Path, fs: Fs)
    requires |nodes| > 0 && nodes[0].File?
    requires IsDir(fs, root) && DistinctNames(nodes)
    requires Layout(nodes, root).Keys !! fs.Keys
    ensures CreateFiles(nodes, root, fs).error.None?
    decreases nodes, 0
  {
    var p := root + [nodes[0].name];
    assert Parent(p) == root;
    assert p in Layout(nodes, root);
    var fs1 := fs[p := FileEntry(nodes[0].content)];
    assert CreateFiles(nodes, root, fs) == CreateFiles(nodes[1..], root, fs1);
    assert NodeLayout(nodes[0], root) == map[p := FileEntry(nodes[0].content)];
    UpdateIsUnion(fs, p, FileEntry(nodes[0].content));
    RestStaysFresh(nodes, root, fs, fs1);
    CreateFilesSucceeds(nodes[1..], root, fs1);
  }

  lemma {:induction false} FolderSucceeds(nodes: seq<Node>, root: Path, fs: Fs)
    requires |nodes| > 0 && nodes[0].Folder?
    requires IsDir(fs, root) && DistinctNames(nodes)
    requires Layout(nodes, root).Keys !! fs.Keys
    ensures CreateFiles(nodes, root, fs).error.None?
    decreases nodes, 0
  {
    var p := root + [nodes[0].name];
    var children := nodes[0].children;
    assert Parent(p) == root;
    assert p in Layout(nodes, root);
    CreateDirInDir(fs, p);
    var fs1 := fs[p := DirEntry];
    ChildrenFresh(nodes, root, fs);
    CreateFilesSucceeds(children, p, fs1);
    var inner := CreateFiles(children, p, fs1);
    CreateFilesPlacesLayout(children, p, fs1);
    RootKept(children, p, fs1, inner.fs);
    assert CreateFiles(nodes, root, fs) == CreateFiles(nodes[1..], root, inner.fs);
    FolderPlaced(nodes[0], root, fs);
    RestStaysFresh(nodes, root, fs, inner.fs);
    CreateFilesSucceeds(nodes[1..], root, inner.fs);
  }

  /** A folder created in place of nothing, then filled, adds exactly its own layout. */
  lemma FolderPlaced(node: Node, root: Path, fs: Fs)
    requires node.Folder?
    ensures fs[root + [node.name] := DirEntry] + Layout(node.children, root + [node.name])
         == fs + NodeLayout(node, root)
  {
    var p := root + [node.name];
    var dir := map[p := DirEntry];
    UpdateIsUnion(fs, p, DirEntry);
    UnionAssoc(fs, dir, Layout(node.children, p));
  }

  /** After the first node is in place, the remaining nodes' paths are still free. */
  lemma RestStaysFresh(nodes: seq<Node>, root: Path, fs: Fs, fs': Fs)
    requires |nodes| > 0 && DistinctNames(nodes)
    requires Layout(nodes, root).Keys !! fs.Keys
    requires fs' == fs + NodeLayout(nodes[0], root)
    ensures Layout(nodes[1..], root).Keys !! fs'.Keys
  {
    forall q | q in Layout(nodes[1..], root)
      ensures q !in fs'
    {
      RestAvoidsFirst(nodes, root, q);
    }
  }

  /** Once a fresh folder is created, its children's paths are still free. */
  lemma ChildrenFresh(nodes: seq<Node>, root: Path, fs: Fs)
    requires |nodes| > 0 && nodes[0].Folder?
    requires Layout(nodes, root).Keys !! fs.Keys
    ensures Layout(nodes[0].children, root + [nodes[0].name]).Keys !! fs[root + [nodes[0].name] := DirEntry].Keys
  {
    var p := root + [nodes[0].name];
    assert forall q :: q in Layout(nodes[0].children, p) ==> q in NodeLayout(nodes[0], root);
  }

  /** A run keeps a tree a tree, even when it stops early. */
  lemma {:induction false} CreateFilesKeepsWellFormed(nodes: seq<Node>, root: Path, fs: Fs)
    requires WellFormed(fs)
    ensures WellFormed(CreateFiles(nodes, root, fs).fs)
    decreases nodes
  {
    if |nodes| > 0 {
      var p := root + [nodes[0].name];
      var rest := nodes[1..];
      match nodes[0]
      case File(_, content) =>
        if WriteFile(fs, p, content).Some? {
          var fs1 := WriteFile(fs, p, content).value;
          assert CreateFiles(nodes, root, fs) == CreateFiles(rest, root, fs1);
          CreateFilesKeepsWellFormed(rest, root, fs1);
        }
      case Folder(_, children) =>
        if CreateDirAll(fs, p).Some? {
          var fs1 := CreateDirAll(fs, p).value;
          CreateDirAllKeepsWellFormed(fs, p);
          CreateFilesKeepsWellFormed(children, p, fs1);
          var inner := CreateFiles(children, p, fs1);
          if inner.error.None? {
            assert CreateFiles(nodes, root, fs) == CreateFiles(rest, root, inner.fs);
            CreateFilesKeepsWellFormed(rest, root, inner.fs);
          } else {
            assert CreateFiles(nodes, root, fs) == inner;
          }
        }
    }
  }

  /**
   * When `root` is not a directory yet, a leading file cannot be created:
   * the run stops at once and changes nothing.
   */
  lemma LeadingFileNeedsRoot(nodes: seq<Node>, root: Path, fs: Fs)
    requires |nodes| > 0 && nodes[0].File? && !IsDir(fs, root)
    ensures CreateFiles(nodes, root, fs) == Effect(fs, Some(CreateFileFailed(root + [nodes[0].name])))
  {
    assert Parent(root + [nodes[0].name]) == root;
  }
}

=== FILE: results.dfy ===
/** Failure-compatible wrappers shared by the other modules. */
module Results {

  /** An optional value, for the source's `Option`. */
  datatype Option<+T> = None | Some(value: T)

  /** A value or an error, for the source's `expect` panics and early returns. */
  datatype Result<+T, +E> = Success(value: T) | Failure(error: E)
}

=== FILE: text.dfy ===
/**
 * String rewriting as the tree builder uses it: left-to-right replacement of
 * a non-empty pattern, removal of a character, and trimming of the first and
 * last character. `Split` and `Join` give replacement an independent
 * reference definition.
 */
module Text {

  /** `pat` occurs in `s` starting at index `i`. */
  predicate MatchAt(s: string, pat: string, i: nat)
  {
    i + |pat| <= |s| && s[i..i + |pat|] == pat
  }

  /** `pat` occurs somewhere in `s`. */
  ghost predicate Occurs(s: string, pat: string)
  {
    exists i: nat :: MatchAt(s, pat, i)
  }

  /** A match in `[c] + t` is either at the front or a match in `t`. */
  lemma OccursCons(c: char, t: string, pat: string)
    ensures Occurs([c] + t, pat) <==> MatchAt([c] + t, pat, 0) || Occurs(t, pat)
  {
    var s := [c] + t;
    if Occurs(s, pat) && !MatchAt(s, pat, 0) {
      var i: nat :| MatchAt(s, pat, i);
      assert i > 0;
      assert s[i..i + |pat|] == t[i - 1..i - 1 + |pat|];
      assert MatchAt(t, pat, i - 1);
    }
    if Occurs(t, pat) {
      var i: nat :| MatchAt(t, pat, i);
      assert s[i + 1..i + 1 + |pat|] == t[i..i + |pat|];
      assert MatchAt(s, pat, i + 1);
    }
  }

  /** A pattern whose first character is missing from `s` does not occur in it. */
  lemma AbsentHeadNoMatch(s: string, pat: string)
    requires |pat| > 0 && pat[0] !in s
    ensures !Occurs(s, pat)
  {
    forall i: nat | i + |pat| <= |s|
      ensures !MatchAt(s, pat, i)
    {
      assert s[i..i + |pat|][0] == s[i];
    }
  }

  /**
   * `s.replace(from, to)`: scans `s` from the left, writes `to` for each
   * match of `from` and resumes right after that match; every other
   * character is copied. A string without a match comes back unchanged.
   */
  function Replace(s: string, from: string, to: string): (r: string)
    requires |from| > 0
    ensures !Occurs(s, from) ==> r == s
    decreases |s|
  {
    if |s| == 0 then s
    else if from <= s then
      assert MatchAt(s, from, 0);
      to + Replace(s[|from|..], from, to)
    else
      OccursCons(s[0], s[1..], from);
      assert s == [s[0]] + s[1..];
      [s[0]] + Replace(s[1..], from, to)
  }

  /** A character where no match starts is copied. */
  lemma ReplaceCopies(c: char, rest: string, from: string, to: string)
    requires |from| > 0 && (c != from[0] || !(from <= [c] + rest))
    ensures Replace([c] + rest, from, to) == [c] + Replace(rest, from, to)
  {
    var s := [c] + rest;
    assert s[0] == c && s[1..] == rest;
  }

  /** A match at the front is replaced and the scan resumes after it. */
  lemma ReplaceMatch(rest: string, from: string, to: string)
    requires |from| > 0
    ensures Replace(from + rest, from, to) == to + Replace(rest, from, to)
  {
    var s := from + rest;
    assert from <= s;
    assert s[|from|..] == rest;
  }

  /** The pieces joined with `sep` between each neighbouring pair. */
  function Join(parts: seq<string>, sep: string): string
    requires |parts| > 0
  {
    if |parts| == 1 then parts[0] else parts[0] + sep + Join(parts[1..], sep)
  }

  /**
   * `s.split(sep)`: the pieces between the matches of `sep` taken from the
   * left, without overlap; there is always at least one piece.
   */
  function Split(s: string, sep: string): (parts: seq<string>)
    requires |sep| > 0
    ensures |parts| > 0
    decreases |s|
  {
    if |s| == 0 then [[]]
    else if sep <= s then [[]] + Split(s[|sep|..], sep)
    else
      var rest := Split(s[1..], sep);
      [[s[0]] + rest[0]] + rest[1..]
  }

  /**
   * The cuts of `parts` are the leftmost matches of `sep`: no match starts
   * inside a piece, neither within the piece nor overlapping the separator
   * that follows it.
   */
  ghost predicate LeftmostCuts(parts: seq<string>, sep: string)
    requires |parts| > 0 && |sep| > 0
  {
    && (forall i :: 0 <= i < |parts| - 1 ==> !Occurs(parts[i] + sep[..|sep| - 1], sep))
    && !Occurs(parts[|parts| - 1], sep)
  }

  lemma JoinConsHead(c: char, parts: seq<string>, sep: string)
    requires |parts| > 0
    ensures Join([[c] + parts[0]] + parts[1..], sep) == [c] + Join(parts, sep)
  {
    var p := [[c] + parts[0]] + parts[1..];
    assert p[1..] == parts[1..];
  }

  /** Splitting at `sep` and joining back with `sep` gives back the string. */
  lemma {:induction false} JoinSplit(s: string, sep: string)
    requires |sep| > 0
    ensures Join(Split(s, sep), sep) == s
    decreases |s|
  {
    if |s| == 0 {
    } else if sep <= s {
      var rest := Split(s[|sep|..], sep);
      JoinSplit(s[|sep|..], sep);
      var parts := [[]] + rest;
      assert Split(s, sep) == parts;
      assert parts[1..] == rest;
      assert Join(parts, sep) == [] + sep + Join(rest, sep);
      assert s == sep + s[|sep|..];
    } else {
      var rest := Split(s[1..], sep);
      JoinSplit(s[1..], sep);
      assert Split(s, sep) == [[s[0]] + rest[0]] + rest[1..];
      JoinConsHead(s[0], rest, sep);
      assert s == [s[0]] + s[1..];
    }
  }

  /** A string shorter than the pattern holds no match. */
  lemma NoShortMatch(t: string, pat: string)
    requires |t| < |pat|
    ensures !Occurs(t, pat)
  {
  }

  /** Splitting cuts at exactly the leftmost non-overlapping matches. */
  lemma {:induction false} SplitCutsLeftmost(s: string, sep: string)
    requires |sep| > 0
    ensures LeftmostCuts(Split(s, sep), sep)
    decreases |s|
  {
    var parts := Split(s, sep);
    var k := |sep| - 1;
    if |s| == 0 {
      NoShortMatch(parts[0], sep);
    } else if sep <= s {
      var rest := Split(s[|sep|..], sep);
      SplitCutsLeftmost(s[|sep|..], sep);
      assert parts == [[]] + rest;
      NoShortMatch(parts[0] + sep[..k], sep);
      forall i | 1 <= i < |parts|
        ensures parts[i] == rest[i - 1]
      {
      }
    } else {
      var rest := Split(s[1..], sep);
      SplitCutsLeftmost(s[1..], sep);
      JoinSplit(s[1..], sep);
      assert parts == [[s[0]] + rest[0]] + rest[1..];
      forall i | 1 <= i < |parts|
        ensures parts[i] == rest[i]
      {
      }
      HeadPieceHasNoMatch(s, sep, rest);
    }
  }

  /** The first piece of a split that does not start at a match holds no early match. */
  lemma HeadPieceHasNoMatch(s: string, sep: string, rest: seq<string>)
    requires |s| > 0 && |sep| > 0 && !(sep <= s)
    requires |rest| > 0 && Join(rest, sep) == s[1..]
    requires LeftmostCuts(rest, sep)
    ensures |rest| == 1 ==> !Occurs([s[0]] + rest[0], sep)
    ensures |rest| > 1 ==> !Occurs([s[0]] + rest[0] + sep[..|sep| - 1], sep)
  {
    if |rest| == 1 {
      assert s == [s[0]] + rest[0];
      OccursCons(s[0], rest[0], sep);
    } else {
      var k := |sep| - 1;
      assert !Occurs(rest[0] + sep[..k], sep);
      assert s[1..] == rest[0] + sep + Join(rest[1..], sep);
      ConsPrefixNoMatch(s, sep, rest[0] + sep[..k]);
      assert [s[0]] + rest[0] + sep[..k] == [s[0]] + (rest[0] + sep[..k]);
    }
  }

  /** `[s[0]] + t` holds no match when `s` does not start with one, `t` holds none, and `t` is a prefix of the rest of `s`. */
  lemma ConsPrefixNoMatch(s: string, sep: string, t: string)
    requires |s| > 0 && |sep| > 0 && !(sep <= s)
    requires t <= s[1..] && !Occurs(t, sep)
    ensures !Occurs([s[0]] + t, sep)
  {
    var head := [s[0]] + t;
    assert head <= s;
    assert !MatchAt(head, sep, 0);
    OccursCons(s[0], t, sep);
  }

  /**
   * Replacement is splitting at the pattern and joining the pieces with the
   * replacement: every leftmost non-overlapping match is replaced and
   * nothing else changes.
   */
  lemma {:induction false} ReplaceIsSplitJoin(s: string, from: string, to: string)
    requires |from| > 0
    ensures Replace(s, from, to) == Join(Split(s, from), to)
    decreases |s|
  {
    if |s| == 0 {
    } else if from <= s {
      var rest := Split(s[|from|..], from);
      ReplaceIsSplitJoin(s[|from|..], from, to);
      var parts := [[]] + rest;
      assert Split(s, from) == parts;
      assert parts[1..] == rest;
      assert Join(parts, to) == [] + to + Join(rest, to);
    } else {
      var rest := Split(s[1..], from);
      ReplaceIsSplitJoin(s[1..], from, to);
      assert Split(s, from) == [[s[0]] + rest[0]] + rest[1..];
      JoinConsHead(s[0], rest, to);
    }
  }

  /** `s` with every `x` left out, the rest in order. */
  function Without<T(==,!new)>(s: seq<T>, x: T): (r: seq<T>)
    ensures x !in r
    ensures multiset(r) == multiset(s)[x := 0]
  {
    if |s| == 0 then []
    else
      assert s == [s[0]] + s[1..];
      (if s[0] == x then [] else [s[0]]) + Without(s[1..], x)
  }

  /** Replacing one character by nothing removes every copy of it. */
  lemma {:induction false} ReplaceByNothing(s: string, c: char)
    ensures Replace(s, [c], []) == Without(s, c)
    decreases |s|
  {
    if |s| > 0 {
      ReplaceByNothing(s[1..], c);
    }
  }

  /** Leaving out works from the front, one element at a time. */
  lemma WithoutCons<T(!new)>(y: T, s: seq<T>, x: T)
    ensures Without([y] + s, x) == (if y == x then [] else [y]) + Without(s, x)
  {
    assert ([y] + s)[1..] == s;
  }

  /** Leaving out an absent element changes nothing. */
  lemma {:induction false} WithoutAbsent<T(!new)>(s: seq<T>, x: T)
    requires x !in s
    ensures Without(s, x) == s
    decreases |s|
  {
    if |s| > 0 {
      WithoutAbsent(s[1..], x);
      assert s == [s[0]] + s[1..];
    }
  }

  /** Leaving out distributes over concatenation. */
  lemma {:induction false} WithoutAppend<T(!new)>(a: seq<T>, b: seq<T>, x: T)
    ensures Without(a + b, x) == Without(a, x) + Without(b, x)
    decreases |a|
  {
    if |a| > 0 {
      assert (a + b)[1..] == a[1..] + b;
      WithoutAppend(a[1..], b, x);
    } else {
      assert a + b == b;
    }
  }

  /**
   * What remains of the character iterator after one `next` and one
   * `next_back`: the string without its first and last character, nothing
   * when there are fewer than two.
   */
  function DropEnds(s: string): (r: string)
    ensures |s| >= 2 ==> s == [s[0]] + r + [s[|s| - 1]]
    ensures |s| < 2 ==> r == []
  {
    if |s| < 2 then [] else s[1..|s| - 1]
  }
}

=== FILE: tree.dfy ===
/**
 * The typed tree the builder produces (`FileHandler` with its `File` and
 * `Folder` variants) and the place each node takes below a root directory.
 */
module Tree {

  import opened FileSystem

  datatype Node =
    | File(name: string, content: string)
    | Folder(name: string, children: seq<Node>)

  /**
   * The entries the tree describes below `root`: a node's path is `root`
   * joined with the names of its ancestor folders and its own name; a folder
   * is a directory there and a file holds its content. Of two nodes on the
   * same path the later one wins in the map; a run that writes the tree
   * without a panic ends in agreement with it.
   */
  function Layout(nodes: seq<Node>, root: Path): (m: map<Path, Entry>)
    ensures forall q :: q in m ==> |q| > |root| && q[..|root|] == root
  {
    if |nodes| == 0 then map[]
    else NodeLayout(nodes[0], root) + Layout(nodes[1..], root)
  }

  function NodeLayout(node: Node, root: Path): (m: map<Path, Entry>)
    ensures root + [node.name] in m
    ensures forall q :: q in m ==> |q| > |root| && q[..|root| + 1] == root + [node.name]
  {
    var p := root + [node.name];
    match node
    case File(_, content) => map[p := FileEntry(content)]
    case Folder(_, children) =>
      var inner := Layout(children, p);
      assert forall q :: q in inner ==> q[..|root| + 1] == q[..|p|][..|root| + 1];
      map[p := DirEntry] + inner
  }

  /** Every path of the tree lies below `root`, under the name of one of the top-level nodes. */
  lemma {:induction false} LayoutUnderNames(nodes: seq<Node>, root: Path, q: Path)
    requires q in Layout(nodes, root)
    ensures exists i :: 0 <= i < |nodes| && q[..|root| + 1] == root + [nodes[i].name]
    decreases |nodes|
  {
    if q in NodeLayout(nodes[0], root) {
      assert q[..|root| + 1] == root + [nodes[0].name];
    } else {
      LayoutUnderNames(nodes[1..], root, q);
      var i :| 0 <= i < |nodes| - 1 && q[..|root| + 1] == root + [nodes[1..][i].name];
      assert nodes[1..][i] == nodes[i + 1];
    }
  }

  /** Every top-level node has its path in the tree's layout. */
  lemma {:induction false} NodePathInLayout(nodes: seq<Node>, root: Path, i: nat)
    requires i < |nodes|
    ensures root + [nodes[i].name] in Layout(nodes, root)
    decreases i
  {
    if i > 0 {
      NodePathInLayout(nodes[1..], root, i - 1);
      assert nodes[1..][i - 1] == nodes[i];
    }
  }

  /** Sibling names are distinct at every level of the tree. */
  ghost predicate DistinctNames(nodes: seq<Node>)
  {
    && (forall i, j :: 0 <= i < j < |nodes| ==> nodes[i].name != nodes[j].name)
    && (forall i :: 0 <= i < |nodes| ==> nodes[i].Folder? ==> DistinctNames(nodes[i].children))
  }

  /** The nodes after the first one place nothing on or below the first node's path. */
  lemma RestAvoidsFirst(nodes: seq<Node>, root: Path, q: Path)
    requires |nodes| > 0 && DistinctNames(nodes)
    requires q in Layout(nodes[1..], root)
    ensures q[..|root| + 1] != root + [nodes[0].name]
  {
    LayoutUnderNames(nodes[1..], root, q);
    var i :| 0 <= i < |nodes| - 1 && q[..|root| + 1] == root + [nodes[1..][i].name];
    assert nodes[1..][i] == nodes[i + 1];
    assert (root + [nodes[i + 1].name])[|root|] == nodes[i + 1].name;
  }
}

=== FILE: validator.dfy ===
/** The collision check run before anything is written (`validate_file_map`). */
module Validator {

  import opened FileSystem
  import opened Tree

  /**
   * Walks the tree depth first, each folder before its children, and
   * answers false at the first node whose path already exists below
   * `root`, true when none does. It only looks at the filesystem: the
   * answer says that no path of the tree exists yet.
   */
  function Validate(nodes: seq<Node>, root: Path, fs: Fs): (ok: bool)
    ensures ok <==> Layout(nodes, root).Keys !! fs.Keys
  {
    if |nodes| == 0 then true
    else
      var p := root + [nodes[0].name];
      if Exists(fs, p) then false
      else if nodes[0].Folder? && !Validate(nodes[0].children, p, fs) then false
      else Validate(nodes[1..], root, fs)
  }
}
